=== FILE: README.md ===
# SqlConnectTool, modelled in Dafny

`SqlConnectTool` is a command-line tool. It checks that a SQL Server
database can be reached through the Microsoft JDBC driver. It reads
`--name value` options, fills in defaults, and builds a
`jdbc:sqlserver://` URL and a set of credential properties. It then loads
the driver and tries to connect. The exit code says which step failed.

This project models the pure part of that program:

- `args.dfy` (module `Args`): the option parser `parseArgs`. It comes
  in two forms: the index-and-`break` loop as written (`ParseArgs`), and a
  recursive reference definition (`ParseFrom`/`Parse`). On top of them
  sits a view of a command line as the options it spells out: `Flag`,
  `Tokens`, the last-wins fold `Apply`, and `Scan`, which splits any
  command line into a well-formed prefix and the reason parsing stopped.
- `decimal.dfy` (module `Decimal`): `Integer.parseInt` for the port
  (an optional sign, ASCII digits, the 32-bit range) and `Integer.toString`
  for writing the port back into the URL.
- `connection_url.dfy` (module `ConnectionUrl`): the validated settings
  (`Config`), the URL clauses in their fixed order, the URL text, and the
  credential properties handed to the driver.
- `tool.dfy` (module `Tool`): the checks and defaults of `main`, and
  the exit decision (codes 0, 1, 2 and 3). Three outside answers are
  inputs (`Environment`): what the password prompt returned, whether the
  driver class is missing, and whether the connect call failed.
- `samples.dfy` (module `Samples`): sample configurations and command
  lines worked through the model. They cover the URL for a minimal
  configuration and for one with a database and a domain, and a complete
  successful run. They also cover the second command line of the usage
  text, run without a console, and the ports `+80` and `0080`.
- `wrappers.dfy` (module `Wrappers`): `Option`, plus `Map.get` and
  `Map.getOrDefault`.

The order of the checks follows the code:

1. The `error` key is checked before `help`. So `--help stray` is a usage
   error with exit code 1, not a help request.
2. A user-supplied `--error x` is reported as a usage error with message
   `x`.
3. A help request returns from `main` normally, so it exits 0.

## Model

| member | source | states |
|---|---|---|
| `Args.ParseArgs` | src/main/java/com/example/wcljdbc/SqlConnectTool.java:113-137 | The loop with its `continue` after `--help` and its `break` at the first error yields exactly the options of the recursive reference parser. |
| `Args.ParseFrom` | src/main/java/com/example/wcljdbc/SqlConnectTool.java:113-137 | Parsing never drops an entry made earlier. Every key it adds is `help`, `error`, or the name of an option spelled `--name` on the command line. |
| `Args.KeyOf` | src/main/java/com/example/wcljdbc/SqlConnectTool.java:122 | The option name is the token without its first two characters: `--` followed by the name gives back the token. |
| `Args.ParseSpelledOut` | src/main/java/com/example/wcljdbc/SqlConnectTool.java:113-137 | Round trip: the command line that spells out well-formed options parses to the record of those options, a later duplicate overwriting an earlier one. |
| `Args.ParseTokens` | src/main/java/com/example/wcljdbc/SqlConnectTool.java:115-135 | Reading the tokens of well-formed options records exactly those options and resumes at the token after them. |
| `Args.ApplyLastWins` | src/main/java/com/example/wcljdbc/SqlConnectTool.java:133-134 | After recording options, a key holds the value of the last option with that key. It keeps its earlier value when no option has that key, and it is present exactly in those two cases. |
| `Args.ParseOrderIndependent` | src/main/java/com/example/wcljdbc/SqlConnectTool.java:133-134 | Two neighbouring options with different names can trade places on the command line without changing the parsed map. |
| `Args.UnexpectedArgumentStops` | src/main/java/com/example/wcljdbc/SqlConnectTool.java:115-120 | A token without `--` sets `error` to `Unexpected argument: ` followed by the token. Entries from the earlier tokens stay, and every later token is ignored. |
| `Args.HelpTakesNoValue` | src/main/java/com/example/wcljdbc/SqlConnectTool.java:122-126 | `--help` sets `help` to `true`, consumes no value, and parsing continues with the very next token as an option. |
| `Args.MissingValueStops` | src/main/java/com/example/wcljdbc/SqlConnectTool.java:128-131 | An option other than `--help` as the last token sets `error` to `Missing value for option: ` followed by the token. The earlier entries stay. |
| `Args.ValueTakenVerbatim` | src/main/java/com/example/wcljdbc/SqlConnectTool.java:122-134 | Any other option stores the following token verbatim as its value, whatever it looks like, under the token minus `--`; parsing resumes after the value. |
| `Args.Scan` | src/main/java/com/example/wcljdbc/SqlConnectTool.java:115-131 | Every command line is a run of well-formed options followed by one of three endings: nothing, a token without `--`, or a final option that has no value. |
| `Args.ParseScanned` | src/main/java/com/example/wcljdbc/SqlConnectTool.java:113-137 | Any command line parses to the last-wins record of the options read before parsing stopped, plus the error entry for the way it stopped. |
| `Args.ErrorKeyIff` | src/main/java/com/example/wcljdbc/SqlConnectTool.java:115-131 | `error` is in the parsed map exactly when parsing stopped early or the command line itself gives an option named `error`. |
| `Decimal.ParseInt` | src/main/java/com/example/wcljdbc/SqlConnectTool.java:45-53 | Text that is not an optional sign followed by decimal digits is rejected. Otherwise: after `-`, digits up to 2147483648 are accepted as their negation; after `+` or with no sign, digits up to 2147483647 are accepted as their value. Anything larger is rejected. |
| `Decimal.NatToString` | src/main/java/com/example/wcljdbc/SqlConnectTool.java:75 | The decimal rendering is non-empty, made of digits only, and has no leading zero. |
| `Decimal.IntToString` | src/main/java/com/example/wcljdbc/SqlConnectTool.java:75 | The port text in the URL is an integer literal with no `+`, and it starts with `-` exactly for a negative port. |
| `Decimal.NatToStringValue` | src/main/java/com/example/wcljdbc/SqlConnectTool.java:75 | Reading the rendered digits back gives the number rendered. |
| `Decimal.ParseIntToString` | src/main/java/com/example/wcljdbc/SqlConnectTool.java:48-75 | Parsing the URL's port text gives back the parsed port, for every 32-bit value. |
| `Decimal.ParseIntCanonical` | src/main/java/com/example/wcljdbc/SqlConnectTool.java:45-75 | Whatever text was accepted as the port, the port text written into the URL parses back to the same port. |
| `Decimal.LeadingZeroValue` | src/main/java/com/example/wcljdbc/SqlConnectTool.java:48 | A leading zero does not change the value of a run of digits. |
| `Decimal.PlusSignIgnored` | src/main/java/com/example/wcljdbc/SqlConnectTool.java:48 | A port written with a leading `+` is read exactly as the same digits without it, accepted or rejected alike. |
| `Decimal.LeadingZeroIgnored` | src/main/java/com/example/wcljdbc/SqlConnectTool.java:48 | A port written with a leading zero is read exactly as the digits without it. |
| `Decimal.DefaultPortValue` | src/main/java/com/example/wcljdbc/SqlConnectTool.java:45 | The default port text `1433` parses to 1433. |
| `ConnectionUrl.EffectiveScheme` | src/main/java/com/example/wcljdbc/SqlConnectTool.java:69-72 | A named authentication scheme is used as given, even an empty one. With none named, a scheme is chosen exactly when the domain is non-empty, and it is `NativeAuthentication`. |
| `ConnectionUrl.Clauses` | src/main/java/com/example/wcljdbc/SqlConnectTool.java:76-86 | Every URL clause is one of the five known names, and they appear in the fixed order: database, encrypt, trustServerCertificate, authenticationScheme, domain. |
| `ConnectionUrl.ClausesContent` | src/main/java/com/example/wcljdbc/SqlConnectTool.java:76-86 | `databaseName` appears only for a non-empty database, and `encrypt` and `trustServerCertificate` always appear with their values. `authenticationScheme` appears only for a non-empty effective scheme, and `domain` only for a non-empty domain. |
| `ConnectionUrl.Url` | src/main/java/com/example/wcljdbc/SqlConnectTool.java:74-88 | The URL begins with `jdbc:sqlserver://`, the host, `:` and the decimal port. |
| `ConnectionUrl.UrlIsJoin` | src/main/java/com/example/wcljdbc/SqlConnectTool.java:74-88 | For every configuration, values containing `;` included, the URL is exactly `jdbc:sqlserver://<host>:<port>` followed by `;name=value` for each clause in clause order. |
| `ConnectionUrl.UrlSplits` | src/main/java/com/example/wcljdbc/SqlConnectTool.java:74-88 | When no value contains `;`, splitting the URL at `;` gives back the base and then one `name=value` piece per clause, in clause order. |
| `ConnectionUrl.Credentials` | src/main/java/com/example/wcljdbc/SqlConnectTool.java:90-95 | The properties are `user` with the username and `password` with the password. `domain` is present, with the domain, exactly when the domain is non-empty, and there are no other keys. |
| `ConnectionUrl.CredentialsMatchUrl` | src/main/java/com/example/wcljdbc/SqlConnectTool.java:84-95 | The credentials carry `domain` exactly when the URL has a `domain` clause, with the same value. |
| `ConnectionUrl.NamedSchemeWins` | src/main/java/com/example/wcljdbc/SqlConnectTool.java:69-83 | A non-empty named scheme is the `authenticationScheme` clause even when a domain is given. |
| `ConnectionUrl.EmptySchemeDisablesDefault` | src/main/java/com/example/wcljdbc/SqlConnectTool.java:69-83 | A named empty scheme gives no `authenticationScheme` clause and no `NativeAuthentication` default, whatever the domain. |
| `ConnectionUrl.SplitJoin` | src/main/java/com/example/wcljdbc/SqlConnectTool.java:74-88 | Splitting at a separator undoes joining with it when no part contains the separator. |
| `Samples.SampleDefaultUrl` | src/main/java/com/example/wcljdbc/SqlConnectTool.java:45-88 | Host `db1` with nothing optional gives `jdbc:sqlserver://db1:1433;encrypt=true;trustServerCertificate=false`. |
| `Samples.SampleDomainUrl` | src/main/java/com/example/wcljdbc/SqlConnectTool.java:67-88 | Database `Sales` and domain `CONTOSO` with no scheme give the `databaseName` clause first, then `encrypt` and `trustServerCertificate`, then `authenticationScheme=NativeAuthentication`, then `domain=CONTOSO`. |
| `Tool.ResolvePassword` | src/main/java/com/example/wcljdbc/SqlConnectTool.java:31-60 | A `password` option is used verbatim, even when empty. Only without one is the prompt's answer used. |
| `Tool.Validate` | src/main/java/com/example/wcljdbc/SqlConnectTool.java:18-72 | Validation lets the attempt proceed exactly when there is no error, no help request, a non-empty host and username, a 32-bit port (default 1433) and a password. A halt never reaches the driver and exits with 0 or 1. On success the settings carry the given host and username, the parsed port, the resolved password, and the database (default empty). They also carry the domain and the scheme as given or absent, `encrypt` (default `true`) and `trustServerCertificate` (default `false`). |
| `Tool.OptionsToClauses` | src/main/java/com/example/wcljdbc/SqlConnectTool.java:55-86 | From the options to the URL: `encrypt` and `trustServerCertificate` always appear, with the option's value or `true` and `false`. `databaseName` appears exactly for a non-empty `--database`. A non-empty `--authenticationScheme` is used even with a domain, and an empty one suppresses the clause. With no scheme given, a non-empty `--domain` selects `NativeAuthentication`. `domain` appears exactly for a non-empty `--domain`. |
| `Tool.Exit.Code` | src/main/java/com/example/wcljdbc/SqlConnectTool.java:17-110 | The exit code is 0 to 3: 0 exactly for help or a connection made, 2 exactly for a missing driver, and 3 exactly for a failed connect. |
| `Tool.Exit.ErrorLine` | src/main/java/com/example/wcljdbc/SqlConnectTool.java:19-108 | A line is written to standard error exactly when the exit code is not 0. |
| `Tool.Decide` | src/main/java/com/example/wcljdbc/SqlConnectTool.java:17-110 | The connect call happens only after validation passed and the driver was found, and it receives the target built from the validated settings. |
| `Tool.Run` | src/main/java/com/example/wcljdbc/SqlConnectTool.java:17-22 | When parsing stopped at a token without `--` or at an option without a value, the run is a usage error with exactly the parser's message, whatever else the command line gives. |
| `Tool.Connect` | src/main/java/com/example/wcljdbc/SqlConnectTool.java:97-110 | Exit 2 exactly when the driver is missing, carrying the lookup's failure detail. Otherwise the connect call is made with the built target. A failure carries the connect's detail, and the exit code is 0 exactly when the connect succeeds. |
| `Tool.FailureOrder` | src/main/java/com/example/wcljdbc/SqlConnectTool.java:18-65 | The first failing check decides, in this order: the error entry (usage error with its message), then help, then missing `--host`, then missing `--username`, then an invalid port (reported with its text), then a missing password. |
| `Tool.AttemptIff` | src/main/java/com/example/wcljdbc/SqlConnectTool.java:18-110 | The connect call is made exactly when validation passes and the driver is present. Exit 2 exactly when validation passes and the driver is missing; exit 3 exactly when the driver is present and the connect fails. |
| `Tool.SuccessIff` | src/main/java/com/example/wcljdbc/SqlConnectTool.java:18-110 | Exit 0 exactly for a help request without a parse error, or a successful connection. |
| `Tool.FailureMessages` | src/main/java/com/example/wcljdbc/SqlConnectTool.java:18-65 | The standard-error line for each validation failure: the error entry verbatim, nothing for help, `Missing required option: --host` or `--username`, `Invalid port: ` with the port text, and `Password not provided.` |
| `Tool.DriverAndConnectMessages` | src/main/java/com/example/wcljdbc/SqlConnectTool.java:97-110 | Once validation has passed, a missing driver writes `SQL Server JDBC driver not found: ` followed by the failure's detail, a failed connect writes `Failed to connect: ` followed by its detail, and a connection made writes nothing to standard error. |
| `Tool.UsageFailureIff` | src/main/java/com/example/wcljdbc/SqlConnectTool.java:18-65 | Exit 1 exactly when validation fails for a reason other than a help request. |
| `Tool.PasswordOptionSkipsPrompt` | src/main/java/com/example/wcljdbc/SqlConnectTool.java:58-60 | With a `password` option the prompt's answer cannot change the outcome. |
| `Tool.ValidationBeforeDriver` | src/main/java/com/example/wcljdbc/SqlConnectTool.java:18-102 | When validation fails, neither the driver lookup nor the connect result can change the outcome. |
| `Tool.AttemptTarget` | src/main/java/com/example/wcljdbc/SqlConnectTool.java:29-105 | The connect call receives a URL that begins `jdbc:sqlserver://<host>:<port>`, with the given host and the parsed port in decimal, and credentials with the given username and the resolved password. The credentials hold `domain` exactly when the domain option is non-empty. |
| `Samples.UsageSampleWithoutConsole` | src/main/java/com/example/wcljdbc/SqlConnectTool.java:148 | The usage text's `--host 10.0.0.4 --domain CONTOSO --username bob`, run where the prompt yields nothing, ends with a missing password and exit 1. |
| `Samples.SamplePortTexts` | src/main/java/com/example/wcljdbc/SqlConnectTool.java:45-53 | The ports `+80` and `0080` are both accepted as 80. |
| `Tool.HelpThenStrayIsUsageError` | src/main/java/com/example/wcljdbc/SqlConnectTool.java:18-27 | `--help stray` exits 1 with `Unexpected argument: stray`, because the error check precedes the help check. |
| `Tool.ErrorOptionCollides` | src/main/java/com/example/wcljdbc/SqlConnectTool.java:18-22 | A well-formed command line whose last `error` option has value `x` ends as a usage error with message `x`. |
| `Tool.HelpAnywhere` | src/main/java/com/example/wcljdbc/SqlConnectTool.java:24-27 | `--help` anywhere in a well-formed command line without an `error` option exits 0, whatever else is missing. |
| `Samples.SampleDefaultRun` | src/main/java/com/example/wcljdbc/SqlConnectTool.java:17-106 | `--host db1 --username alice --password pw`, with the driver present and the server reachable, connects to the default URL with just `user` and `password` as credentials. |

## Left out

- Printing is not modelled: the usage text (`printUsage`), the
  "Connecting to" and "Connection established" lines, and the
  standard-error lines. The text each failing exit writes to standard
  error is kept as `Exit.ErrorLine`.
- `System.exit` is not modelled; the result is an `Exit` value with its
  `Code`.
- `promptForPassword` is console I/O and clears the buffer afterwards. Its
  result is an input (`Environment.prompt`), and `None` stands for no
  console or a closed prompt.
- `Class.forName` and `DriverManager.getConnection` are reflective
  loading and a network call into the driver. Their outcomes are inputs
  (`Environment.driverError`, `Environment.connectError`), carrying the
  exception message when they fail. Closing the connection is not
  modelled.
- `Decimal.ParseInt`: accepts ASCII digits only, because the Unicode
  decimal digits of other scripts that `Integer.parseInt` also accepts are
  not modelled.
- Java strings are modelled as sequences of characters, so there is no
  UTF-16 detail.

=== FILE: args.dfy ===
/** The command-line parser of the tool (`parseArgs`): a flat sequence of
    tokens becomes a map from option name to value. Every token read as an
    option must start with `--`; `--help` stands alone and every other option
    takes the next token, whatever it is, as its value. A failure is recorded
    under the pseudo-key `error` and ends parsing; entries made before it
    stay. */
module Args {
  import opened Wrappers

  type Options = map<string, string>

  const OptionPrefix: string := "--"
  const HelpKey: string := "help"
  const ErrorKey: string := "error"
  /** The value stored under `help` when `--help` is seen. */
  const HelpValue: string := "true"

  predicate IsOptionToken(token: string) {
    |token| >= 2 && token[..2] == OptionPrefix
  }

  /** The option name: the token without its leading `--`. */
  function KeyOf(token: string): (key: string)
    requires IsOptionToken(token)
    ensures OptionPrefix + key == token
  {
    token[2..]
  }

  function UnexpectedArgument(token: string): string {
    "Unexpected argument: " + token
  }

  function MissingValue(token: string): string {
    "Missing value for option: " + token
  }

  /** The parser from some token on: `acc` holds what the earlier tokens
      produced and `args` the tokens still to read. */
  function ParseFrom(acc: Options, args: seq<string>): (r: Options)
    ensures acc.Keys <= r.Keys
    ensures forall k :: k in r && k !in acc ==> k == HelpKey || k == ErrorKey || OptionPrefix + k in args
    decreases |args|
  {
    if |args| == 0 then acc
    else if !IsOptionToken(args[0]) then acc[ErrorKey := UnexpectedArgument(args[0])]
    else if KeyOf(args[0]) == HelpKey then ParseFrom(acc[HelpKey := HelpValue], args[1..])
    else if |args| == 1 then acc[ErrorKey := MissingValue(args[0])]
    else ParseFrom(acc[KeyOf(args[0]) := args[1]], args[2..])
  }

  /** The options a whole command line yields. */
  function Parse(args: seq<string>): Options {
    ParseFrom(map[], args)
  }

  /** `parseArgs` as written: one pass with an index, a `continue` after
      `--help` and a `break` at the first error. */
  method ParseArgs(args: seq<string>) returns (options: Options)
    ensures options == Parse(args)
  {
    options := map[];
    var i := 0;
    while i < |args|
      invariant 0 <= i <= |args|
      invariant ParseFrom(options, args[i..]) == Parse(args)
    {
      var arg := args[i];
      if !IsOptionToken(arg) {
        options := options[ErrorKey := UnexpectedArgument(arg)];
        break;
      }
      var key := KeyOf(arg);
      if key == HelpKey {
        options := options[HelpKey := HelpValue];
        i := i + 1;
        continue;
      }
      if i + 1 >= |args| {
        options := options[ErrorKey := MissingValue(arg)];
        break;
      }
      i := i + 1;
      var value := args[i];
      options := options[key := value];
      i := i + 1;
    }
  }

  // A well-formed command line, seen as the options it spells out

  /** One option as it appears on a command line: `--help` alone, or
      `--name value`. */
  datatype Flag = HelpFlag | Valued(name: string, value: string) {
    /** `--help` never takes a value, so a valued flag cannot be named `help`. */
    predicate WellFormed() {
      Valued? ==> name != HelpKey
    }

    function Key(): string {
      if HelpFlag? then HelpKey else name
    }

    function Value(): string {
      if HelpFlag? then HelpValue else value
    }
  }

  predicate AllWellFormed(flags: seq<Flag>) {
    forall i :: 0 <= i < |flags| ==> flags[i].WellFormed()
  }

  function FlagTokens(f: Flag): seq<string> {
    match f
    case HelpFlag => [OptionPrefix + HelpKey]
    case Valued(n, v) => [OptionPrefix + n, v]
  }

  /** The command line that spells out `flags`, in order. */
  function Tokens(flags: seq<Flag>): seq<string> {
    if |flags| == 0 then [] else FlagTokens(flags[0]) + Tokens(flags[1..])
  }

  /** Records `flags` into `acc` from first to last, so a later flag with the
      same key replaces an earlier one. */
  function Apply(acc: Options, flags: seq<Flag>): Options
    decreases |flags|
  {
    if |flags| == 0 then acc else Apply(acc[flags[0].Key() := flags[0].Value()], flags[1..])
  }

  /** The value of the last flag in `flags` with key `key`, if any. */
  function LastValue(flags: seq<Flag>, key: string): Option<string> {
    if |flags| == 0 then None
    else if flags[|flags| - 1].Key() == key then Some(flags[|flags| - 1].Value())
    else LastValue(flags[..|flags| - 1], key)
  }

  lemma {:induction false} TokensAppend(xs: seq<Flag>, ys: seq<Flag>)
    ensures Tokens(xs + ys) == Tokens(xs) + Tokens(ys)
  {
    if |xs| > 0 {
      assert (xs + ys)[1..] == xs[1..] + ys;
      TokensAppend(xs[1..], ys);
    } else {
      assert xs + ys == ys;
    }
  }

  lemma {:induction false} ApplyAppend(acc: Options, xs: seq<Flag>, ys: seq<Flag>)
    ensures Apply(acc, xs + ys) == Apply(Apply(acc, xs), ys)
    decreases |xs|
  {
    if |xs| > 0 {
      assert (xs + ys)[1..] == xs[1..] + ys;
      ApplyAppend(acc[xs[0].Key() := xs[0].Value()], xs[1..], ys);
    } else {
      assert xs + ys == ys;
    }
  }

  /** Reading the tokens of well-formed flags records exactly those flags and
      leaves the parser at the token that follows them. */
  lemma {:induction false} ParseTokens(acc: Options, flags: seq<Flag>, rest: seq<string>)
    requires AllWellFormed(flags)
    ensures ParseFrom(acc, Tokens(flags) + rest) == ParseFrom(Apply(acc, flags), rest)
    decreases |flags|
  {
    if |flags| > 0 {
      var f := flags[0];
      var args := Tokens(flags) + rest;
      assert args == FlagTokens(f) + (Tokens(flags[1..]) + rest);
      assert AllWellFormed(flags[1..]) by {
        forall i | 0 <= i < |flags[1..]| ensures flags[1..][i].WellFormed() {
          assert flags[1..][i] == flags[i + 1];
        }
      }
      match f
      case HelpFlag =>
        assert IsOptionToken(args[0]) && KeyOf(args[0]) == HelpKey;
        assert args[1..] == Tokens(flags[1..]) + rest;
        ParseTokens(acc[HelpKey := HelpValue], flags[1..], rest);
      case Valued(n, v) =>
        assert f.WellFormed();
        assert args[0] == OptionPrefix + n;
        assert IsOptionToken(args[0]) && KeyOf(args[0]) == n;
        assert args[1] == v;
        assert args[2..] == Tokens(flags[1..]) + rest;
        ParseTokens(acc[n := v], flags[1..], rest);
    } else {
      assert Tokens(flags) + rest == rest;
    }
  }

  /** Round trip: the command line spelling out well-formed flags parses to
      the last-wins record of those flags. */
  lemma ParseSpelledOut(flags: seq<Flag>)
    requires AllWellFormed(flags)
    ensures Parse(Tokens(flags)) == Apply(map[], flags)
  {
    ParseTokens(map[], flags, []);
    assert Tokens(flags) + [] == Tokens(flags);
  }

  /** Last wins: after recording `flags`, a key holds the value of the last
      flag with that key, or its earlier value when no flag has that key. */
  lemma {:induction false} ApplyLastWins(acc: Options, flags: seq<Flag>, key: string)
    ensures key in Apply(acc, flags) <==> LastValue(flags, key).Some? || key in acc
    ensures LastValue(flags, key).Some? ==> Apply(acc, flags)[key] == LastValue(flags, key).value
    ensures LastValue(flags, key).None? && key in acc ==> Apply(acc, flags)[key] == acc[key]
  {
    if |flags| > 0 {
      var init := flags[..|flags| - 1];
      var last := flags[|flags| - 1];
      assert flags == init + [last];
      ApplyAppend(acc, init, [last]);
      ApplyLastWins(acc, init, key);
      assert Apply(acc, flags) == Apply(acc, init)[last.Key() := last.Value()];
    }
  }

  lemma ApplyPair(m: Options, a: Flag, b: Flag)
    ensures Apply(m, [a, b]) == m[a.Key() := a.Value()][b.Key() := b.Value()]
  {
    var ma := m[a.Key() := a.Value()];
    assert [a, b][1..] == [b];
    assert Apply(m, [a, b]) == Apply(ma, [b]);
    assert [b][1..] == [];
    assert Apply(ma, [b]) == Apply(ma[b.Key() := b.Value()], []);
  }

  /** Two neighbouring flags with different keys may trade places without
      changing the recorded options. */
  lemma ApplySwap(acc: Options, before: seq<Flag>, a: Flag, b: Flag, after: seq<Flag>)
    requires a.Key() != b.Key()
    ensures Apply(acc, before + [a, b] + after) == Apply(acc, before + [b, a] + after)
  {
    ApplyAppend(acc, before + [a, b], after);
    ApplyAppend(acc, before + [b, a], after);
    ApplyAppend(acc, before, [a, b]);
    ApplyAppend(acc, before, [b, a]);
    var m := Apply(acc, before);
    ApplyPair(m, a, b);
    ApplyPair(m, b, a);
    assert m[a.Key() := a.Value()][b.Key() := b.Value()] == m[b.Key() := b.Value()][a.Key() := a.Value()];
  }

  /** Two neighbouring options with distinct keys may trade places on the
      command line without changing the parsed options. */
  lemma ParseOrderIndependent(before: seq<Flag>, a: Flag, b: Flag, after: seq<Flag>)
    requires AllWellFormed(before + [a, b] + after)
    requires a.Key() != b.Key()
    ensures Parse(Tokens(before + [a, b] + after)) == Parse(Tokens(before + [b, a] + after))
  {
    var xs := before + [a, b] + after;
    var ys := before + [b, a] + after;
    assert AllWellFormed(ys) by {
      forall i | 0 <= i < |ys| ensures ys[i].WellFormed() {
        if i == |before| {
          assert ys[i] == xs[i + 1];
        } else if i == |before| + 1 {
          assert ys[i] == xs[i - 1];
        } else {
          assert ys[i] == xs[i];
        }
      }
    }
    ParseSpelledOut(xs);
    ParseSpelledOut(ys);
    ApplySwap(map[], before, a, b, after);
  }

  // The parser's behaviours, each after any well-formed prefix

  /** A token without `--` records `Unexpected argument: <token>` and ends
      parsing: entries from the earlier tokens stay, the later tokens are
      ignored. */
  lemma UnexpectedArgumentStops(flags: seq<Flag>, token: string, rest: seq<string>)
    requires AllWellFormed(flags)
    requires !IsOptionToken(token)
    ensures Parse(Tokens(flags) + [token] + rest) == Apply(map[], flags)[ErrorKey := UnexpectedArgument(token)]
  {
    ParseTokens(map[], flags, [token] + rest);
    assert Tokens(flags) + [token] + rest == Tokens(flags) + ([token] + rest);
  }

  /** `--help` records `help` as `true` and takes no value: the token after
      it is read as the next option. */
  lemma HelpTakesNoValue(flags: seq<Flag>, rest: seq<string>)
    requires AllWellFormed(flags)
    ensures Parse(Tokens(flags) + [OptionPrefix + HelpKey] + rest)
         == ParseFrom(Apply(map[], flags)[HelpKey := HelpValue], rest)
  {
    ParseTokens(map[], flags, [OptionPrefix + HelpKey] + rest);
    assert Tokens(flags) + [OptionPrefix + HelpKey] + rest == Tokens(flags) + ([OptionPrefix + HelpKey] + rest);
    var t := [OptionPrefix + HelpKey] + rest;
    assert IsOptionToken(t[0]) && KeyOf(t[0]) == HelpKey;
    assert t[1..] == rest;
  }

  /** An option other than `--help` as the last token records
      `Missing value for option: <token>` and ends parsing. */
  lemma MissingValueStops(flags: seq<Flag>, token: string)
    requires AllWellFormed(flags)
    requires IsOptionToken(token) && KeyOf(token) != HelpKey
    ensures Parse(Tokens(flags) + [token]) == Apply(map[], flags)[ErrorKey := MissingValue(token)]
  {
    ParseTokens(map[], flags, [token]);
  }

  /** Any other option takes the following token verbatim, even one that
      starts with `--`, under the option name without its `--`; a later
      duplicate replaces it. */
  lemma ValueTakenVerbatim(flags: seq<Flag>, token: string, value: string, rest: seq<string>)
    requires AllWellFormed(flags)
    requires IsOptionToken(token) && KeyOf(token) != HelpKey
    ensures Parse(Tokens(flags) + [token, value] + rest)
         == ParseFrom(Apply(map[], flags)[KeyOf(token) := value], rest)
  {
    ParseTokens(map[], flags, [token, value] + rest);
    assert Tokens(flags) + [token, value] + rest == Tokens(flags) + ([token, value] + rest);
    var t := [token, value] + rest;
    assert t[2..] == rest;
  }

  // Every command line is a well-formed prefix followed by where parsing stopped

  /** How parsing ended: all tokens read, at a token without `--`, or at an
      option that had no value after it. */
  datatype Stop = Exhausted | Unexpected(token: string) | NoValue(token: string)

  datatype Scanned = Scanned(flags: seq<Flag>, stop: Stop)

  /** Splits a command line into the well-formed options parsing reads and
      the reason it stopped. */
  function Scan(args: seq<string>): (r: Scanned)
    ensures AllWellFormed(r.flags)
    ensures r.stop.Exhausted? ==> Tokens(r.flags) == args
    ensures r.stop.Unexpected? ==> !IsOptionToken(r.stop.token) && Tokens(r.flags) + [r.stop.token] <= args
    ensures r.stop.NoValue? ==> IsOptionToken(r.stop.token) && KeyOf(r.stop.token) != HelpKey
                                && Tokens(r.flags) + [r.stop.token] == args
    decreases |args|
  {
    if |args| == 0 then Scanned([], Exhausted)
    else if !IsOptionToken(args[0]) then Scanned([], Unexpected(args[0]))
    else if KeyOf(args[0]) == HelpKey then
      var s := Scan(args[1..]);
      assert FlagTokens(HelpFlag) + args[1..] == args;
      assert ([HelpFlag] + s.flags)[1..] == s.flags;
      Scanned([HelpFlag] + s.flags, s.stop)
    else if |args| == 1 then Scanned([], NoValue(args[0]))
    else
      var f := Valued(KeyOf(args[0]), args[1]);
      var s := Scan(args[2..]);
      assert FlagTokens(f) + args[2..] == args;
      assert ([f] + s.flags)[1..] == s.flags;
      Scanned([f] + s.flags, s.stop)
  }

  /** What the stop adds to the options recorded before it. */
  function Finish(recorded: Options, stop: Stop): Options {
    match stop
    case Exhausted => recorded
    case Unexpected(t) => recorded[ErrorKey := UnexpectedArgument(t)]
    case NoValue(t) => recorded[ErrorKey := MissingValue(t)]
  }

  /** Every command line parses to the last-wins record of the options read
      before parsing stopped, plus the error for the stop, if any. */
  lemma ParseScanned(args: seq<string>)
    ensures Parse(args) == Finish(Apply(map[], Scan(args).flags), Scan(args).stop)
  {
    var s := Scan(args);
    var n := |Tokens(s.flags)|;
    assert args == Tokens(s.flags) + args[n..];
    ParseTokens(map[], s.flags, args[n..]);
    var rest := args[n..];
    match s.stop
    case Exhausted =>
      assert rest == [];
    case Unexpected(t) =>
      assert rest[0] == t;
    case NoValue(t) =>
      assert rest == [t];
  }

  /** `error` appears exactly when parsing stopped early or when the command
      line itself spells an option named `error`. */
  lemma ErrorKeyIff(args: seq<string>)
    ensures ErrorKey in Parse(args)
        <==> !Scan(args).stop.Exhausted? || LastValue(Scan(args).flags, ErrorKey).Some?
  {
    var s := Scan(args);
    ParseScanned(args);
    ApplyLastWins(map[], s.flags, ErrorKey);
  }
}

=== FILE: connection_url.dfy ===
/** The connection target the tool hands to the SQL Server JDBC driver: a URL
    `jdbc:sqlserver://<host>:<port>` followed by `;name=value` clauses in a
    fixed order, and the credential properties passed beside it. */
module ConnectionUrl {
  import opened Wrappers
  import Decimal

  const UrlPrefix: string := "jdbc:sqlserver://"
  const Separator: char := ';'

  /** The scheme used when a domain is given and no scheme is named. */
  const NativeAuthentication: string := "NativeAuthentication"

  const DatabaseClause: string := "databaseName"
  const EncryptClause: string := "encrypt"
  const TrustClause: string := "trustServerCertificate"
  const SchemeClause: string := "authenticationScheme"
  const DomainClause: string := "domain"

  const UserProperty: string := "user"
  const PasswordProperty: string := "password"
  const DomainProperty: string := "domain"

  /** The validated settings of one connection attempt. `domain` and
      `authenticationScheme` are `None` when the option was not given. */
  datatype Config = Config(
    host: string,
    port: int,
    database: string,
    domain: Option<string>,
    username: string,
    password: string,
    encrypt: string,
    trustServerCertificate: string,
    authenticationScheme: Option<string>)

  /** What the driver's connect call receives. */
  datatype Target = Target(url: string, credentials: map<string, string>)

  datatype Clause = Clause(name: string, value: string)

  /** Given and not the empty string: the test the tool applies to the
      domain and to the authentication scheme. */
  predicate NonEmpty(o: Option<string>) {
    o.Some? && o.value != ""
  }

  /** The authentication scheme: a named one wins, even the empty one; with
      none named, a non-empty domain selects `NativeAuthentication`. */
  function EffectiveScheme(named: Option<string>, domain: Option<string>): (r: Option<string>)
    ensures named.Some? ==> r == named
    ensures named.None? ==> (r.Some? <==> NonEmpty(domain))
    ensures r.Some? && named.None? ==> r.value == NativeAuthentication
  {
    if named.None? && NonEmpty(domain) then Some(NativeAuthentication) else named
  }

  /** Position of a clause name in the fixed URL order; 5 for any other name. */
  function Rank(name: string): nat {
    if name == DatabaseClause then 0
    else if name == EncryptClause then 1
    else if name == TrustClause then 2
    else if name == SchemeClause then 3
    else if name == DomainClause then 4
    else 5
  }

  /** The clauses that follow host and port, in URL order. */
  function Clauses(cfg: Config): (cs: seq<Clause>)
    ensures forall i :: 0 <= i < |cs| ==> Rank(cs[i].name) < 5
    ensures forall i, j :: 0 <= i < j < |cs| ==> Rank(cs[i].name) < Rank(cs[j].name)
  {
    var scheme := EffectiveScheme(cfg.authenticationScheme, cfg.domain);
    (if cfg.database != "" then [Clause(DatabaseClause, cfg.database)] else [])
    + [Clause(EncryptClause, cfg.encrypt), Clause(TrustClause, cfg.trustServerCertificate)]
    + (if NonEmpty(scheme) then [Clause(SchemeClause, scheme.value)] else [])
    + (if NonEmpty(cfg.domain) then [Clause(DomainClause, cfg.domain.value)] else [])
  }

  /** The value of the first clause called `name`. */
  function Lookup(cs: seq<Clause>, name: string): Option<string> {
    if |cs| == 0 then None
    else if cs[0].name == name then Some(cs[0].value)
    else Lookup(cs[1..], name)
  }

  lemma {:induction false} LookupAppend(xs: seq<Clause>, ys: seq<Clause>, name: string)
    ensures Lookup(xs + ys, name) == if Lookup(xs, name).Some? then Lookup(xs, name) else Lookup(ys, name)
  {
    if |xs| > 0 {
      assert (xs + ys)[1..] == xs[1..] + ys;
      LookupAppend(xs[1..], ys, name);
    } else {
      assert xs + ys == ys;
    }
  }

  lemma LookupSingle(c: Clause, name: string)
    ensures Lookup([c], name) == if c.name == name then Some(c.value) else None
  {
  }

  /** Which clauses the URL carries and with what values: `databaseName`
      only for a non-empty database, `encrypt` and `trustServerCertificate`
      always, `authenticationScheme` only for a non-empty effective scheme,
      `domain` only for a non-empty domain. */
  lemma ClausesContent(cfg: Config)
    ensures Lookup(Clauses(cfg), DatabaseClause) == if cfg.database != "" then Some(cfg.database) else None
    ensures Lookup(Clauses(cfg), EncryptClause) == Some(cfg.encrypt)
    ensures Lookup(Clauses(cfg), TrustClause) == Some(cfg.trustServerCertificate)
    ensures Lookup(Clauses(cfg), SchemeClause)
         == var s := EffectiveScheme(cfg.authenticationScheme, cfg.domain); if NonEmpty(s) then s else None
    ensures Lookup(Clauses(cfg), DomainClause) == if NonEmpty(cfg.domain) then cfg.domain else None
  {
    var scheme := EffectiveScheme(cfg.authenticationScheme, cfg.domain);
    var a := if cfg.database != "" then [Clause(DatabaseClause, cfg.database)] else [];
    var b := [Clause(EncryptClause, cfg.encrypt), Clause(TrustClause, cfg.trustServerCertificate)];
    var c := if NonEmpty(scheme) then [Clause(SchemeClause, scheme.value)] else [];
    var d := if NonEmpty(cfg.domain) then [Clause(DomainClause, cfg.domain.value)] else [];
    assert Clauses(cfg) == a + b + c + d;
    var names := [DatabaseClause, EncryptClause, TrustClause, SchemeClause, DomainClause];
    forall name | name in names
      ensures Lookup(Clauses(cfg), name)
           == if Lookup(a, name).Some? then Lookup(a, name)
              else if Lookup(b, name).Some? then Lookup(b, name)
              else if Lookup(c, name).Some? then Lookup(c, name)
              else Lookup(d, name)
    {
      LookupAppend(a + b + c, d, name);
      LookupAppend(a + b, c, name);
      LookupAppend(a, b, name);
    }
    forall name | name in names
      ensures Lookup(b, name) == if name == EncryptClause then Some(cfg.encrypt)
                                 else if name == TrustClause then Some(cfg.trustServerCertificate)
                                 else None
    {
      assert b == [b[0]] + [b[1]];
      LookupAppend([b[0]], [b[1]], name);
      LookupSingle(b[0], name);
      LookupSingle(b[1], name);
    }
    forall name | name in names
      ensures Lookup(a, name) == if name == DatabaseClause && cfg.database != "" then Some(cfg.database) else None
      ensures Lookup(c, name) == if name == SchemeClause && NonEmpty(scheme) then scheme else None
      ensures Lookup(d, name) == if name == DomainClause && NonEmpty(cfg.domain) then cfg.domain else None
    {
      if cfg.database != "" { LookupSingle(a[0], name); }
      if NonEmpty(scheme) { LookupSingle(c[0], name); }
      if NonEmpty(cfg.domain) { LookupSingle(d[0], name); }
    }
  }

  /** `jdbc:sqlserver://<host>:<port>` with the port in decimal. */
  function UrlBase(cfg: Config): string {
    UrlPrefix + cfg.host + ":" + Decimal.IntToString(cfg.port)
  }

  function RenderClause(c: Clause): string {
    c.name + "=" + c.value
  }

  /** Each clause as `;name=value`, in order. */
  function RenderClauses(cs: seq<Clause>): string {
    if |cs| == 0 then "" else [Separator] + RenderClause(cs[0]) + RenderClauses(cs[1..])
  }

  /** The connection URL the tool builds. */
  function Url(cfg: Config): (url: string)
    ensures UrlBase(cfg) <= url
  {
    UrlBase(cfg) + RenderClauses(Clauses(cfg))
  }

  /** The driver properties: always `user` and `password`, and `domain`
      exactly when the domain is non-empty. */
  function Credentials(cfg: Config): (props: map<string, string>)
    ensures props.Keys == {UserProperty, PasswordProperty} + (if NonEmpty(cfg.domain) then {DomainProperty} else {})
    ensures props[UserProperty] == cfg.username && props[PasswordProperty] == cfg.password
    ensures DomainProperty in props ==> props[DomainProperty] == cfg.domain.value
  {
    var props := map[UserProperty := cfg.username, PasswordProperty := cfg.password];
    if NonEmpty(cfg.domain) then props[DomainProperty := cfg.domain.value] else props
  }

  function BuildTarget(cfg: Config): Target {
    Target(Url(cfg), Credentials(cfg))
  }

  /** The URL and the credentials agree on the domain: the credentials carry
      `domain` exactly when the URL has a `domain` clause, with the same
      value. */
  lemma CredentialsMatchUrl(cfg: Config)
    ensures DomainProperty in BuildTarget(cfg).credentials <==> Lookup(Clauses(cfg), DomainClause).Some?
    ensures DomainProperty in BuildTarget(cfg).credentials
        ==> Some(BuildTarget(cfg).credentials[DomainProperty]) == Lookup(Clauses(cfg), DomainClause)
  {
    ClausesContent(cfg);
  }

  /** A named scheme is used as given even when a domain is present. */
  lemma NamedSchemeWins(cfg: Config)
    requires NonEmpty(cfg.authenticationScheme)
    ensures Lookup(Clauses(cfg), SchemeClause) == cfg.authenticationScheme
  {
    ClausesContent(cfg);
  }

  /** A named empty scheme gives no `authenticationScheme` clause and no
      default, whatever the domain. */
  lemma EmptySchemeDisablesDefault(cfg: Config)
    requires cfg.authenticationScheme == Some("")
    ensures Lookup(Clauses(cfg), SchemeClause) == None
  {
    ClausesContent(cfg);
  }

  // Reading the URL back: splitting at `;` recovers base and clauses

  /** The parts joined with `sep` between neighbours. */
  function Join(parts: seq<string>, sep: char): string
    requires |parts| > 0
  {
    if |parts| == 1 then parts[0] else parts[0] + [sep] + Join(parts[1..], sep)
  }

  /** The pieces of `s` between occurrences of `sep`. */
  function Split(s: string, sep: char): (parts: seq<string>)
    ensures |parts| > 0
  {
    if |s| == 0 then [""]
    else
      var tail := Split(s[1..], sep);
      if s[0] == sep then [""] + tail else [[s[0]] + tail[0]] + tail[1..]
  }

  lemma {:induction false} SplitWithoutSeparator(p: string, sep: char)
    requires sep !in p
    ensures Split(p, sep) == [p]
  {
    if |p| > 0 {
      SplitWithoutSeparator(p[1..], sep);
      assert [p[0]] + p[1..] == p;
    }
  }

  lemma {:induction false} SplitAtFirst(p: string, sep: char, t: string)
    requires sep !in p
    ensures Split(p + [sep] + t, sep) == [p] + Split(t, sep)
  {
    var s := p + [sep] + t;
    if |p| == 0 {
      assert s == [sep] + t;
      assert s[1..] == t;
    } else {
      assert s[1..] == p[1..] + [sep] + t;
      SplitAtFirst(p[1..], sep, t);
      assert [p[0]] + p[1..] == p;
    }
  }

  /** Splitting undoes joining when no part contains the separator. */
  lemma {:induction false} SplitJoin(parts: seq<string>, sep: char)
    requires |parts| > 0
    requires forall i :: 0 <= i < |parts| ==> sep !in parts[i]
    ensures Split(Join(parts, sep), sep) == parts
  {
    if |parts| == 1 {
      SplitWithoutSeparator(parts[0], sep);
    } else {
      SplitJoin(parts[1..], sep);
      SplitAtFirst(parts[0], sep, Join(parts[1..], sep));
      assert [parts[0]] + parts[1..] == parts;
    }
  }

  /** Each clause as `name=value`, in order. */
  function Segments(cs: seq<Clause>): (segs: seq<string>)
    ensures |segs| == |cs|
    ensures forall i :: 0 <= i < |cs| ==> segs[i] == RenderClause(cs[i])
  {
    if |cs| == 0 then [] else [RenderClause(cs[0])] + Segments(cs[1..])
  }

  lemma {:induction false} RenderIsJoin(p: string, cs: seq<Clause>)
    ensures p + RenderClauses(cs) == Join([p] + Segments(cs), Separator)
    decreases |cs|
  {
    if |cs| > 0 {
      RenderIsJoin(RenderClause(cs[0]), cs[1..]);
      var parts := [p] + Segments(cs);
      assert parts[1..] == [RenderClause(cs[0])] + Segments(cs[1..]);
    } else {
      assert [p] + Segments(cs) == [p];
    }
  }

  /** For every configuration, whatever its values contain, the URL is the
      base followed by each clause's `name=value`, in clause order, joined
      with `;`. */
  lemma UrlIsJoin(cfg: Config)
    ensures Url(cfg) == Join([UrlBase(cfg)] + Segments(Clauses(cfg)), Separator)
  {
    RenderIsJoin(UrlBase(cfg), Clauses(cfg));
  }

  /** No text placed in the URL contains the clause separator. */
  predicate SeparatorFree(cfg: Config) {
    && Separator !in cfg.host
    && Separator !in cfg.database
    && Separator !in cfg.encrypt
    && Separator !in cfg.trustServerCertificate
    && (cfg.authenticationScheme.Some? ==> Separator !in cfg.authenticationScheme.value)
    && (cfg.domain.Some? ==> Separator !in cfg.domain.value)
  }

  lemma BaseSeparatorFree(cfg: Config)
    requires Separator !in cfg.host
    ensures Separator !in UrlBase(cfg)
  {
  }

  lemma NameSeparatorFree(name: string)
    requires Rank(name) < 5
    ensures Separator !in name
  {
  }

  lemma ClausesSeparatorFree(cfg: Config)
    requires SeparatorFree(cfg)
    ensures forall i :: 0 <= i < |Clauses(cfg)| ==> Separator !in RenderClause(Clauses(cfg)[i])
  {
    var cs := Clauses(cfg);
    var scheme := EffectiveScheme(cfg.authenticationScheme, cfg.domain);
    assert scheme.Some? ==> Separator !in scheme.value by {
      if cfg.authenticationScheme.None? && scheme.Some? {
        assert forall i :: 0 <= i < |NativeAuthentication| ==> NativeAuthentication[i] != Separator;
      }
    }
    assert forall i :: 0 <= i < |cs| ==> Separator !in cs[i].value;
    forall i | 0 <= i < |cs| ensures Separator !in RenderClause(cs[i]) {
      NameSeparatorFree(cs[i].name);
    }
  }

  /** A reader that splits the URL at `;` gets back the base and then one
      `name=value` piece per clause, in clause order. */
  lemma UrlSplits(cfg: Config)
    requires SeparatorFree(cfg)
    ensures Split(Url(cfg), Separator) == [UrlBase(cfg)] + Segments(Clauses(cfg))
  {
    var cs := Clauses(cfg);
    var parts := [UrlBase(cfg)] + Segments(cs);
    RenderIsJoin(UrlBase(cfg), cs);
    BaseSeparatorFree(cfg);
    ClausesSeparatorFree(cfg);
    assert forall i :: 0 <= i < |parts| ==> Separator !in parts[i];
    SplitJoin(parts, Separator);
  }
}

=== FILE: decimal.dfy ===
/** Decimal text for the port number: the tool reads the port with Java's
    `Integer.parseInt` and writes it back into the URL with the decimal
    rendering of a Java `int`. Both are modelled here on ASCII digits with the
    32-bit range check made explicit. */
module Decimal {
  import opened Wrappers

  const Int32Min: int := -0x8000_0000
  const Int32Max: int := 0x7FFF_FFFF

  /** `n` fits in a Java `int`. */
  predicate InInt32(n: int) {
    Int32Min <= n <= Int32Max
  }

  predicate IsDigit(c: char) {
    '0' <= c <= '9'
  }

  predicate AllDigits(s: string) {
    forall i :: 0 <= i < |s| ==> IsDigit(s[i])
  }

  /** The text shape `Integer.parseInt` accepts: an optional `-` or `+`
      followed by at least one decimal digit. */
  predicate IsIntLiteral(s: string) {
    && |s| > 0
    && if s[0] == '-' || s[0] == '+' then |s| > 1 && AllDigits(s[1..]) else AllDigits(s)
  }

  function DigitValue(c: char): (d: nat)
    requires IsDigit(c)
    ensures d < 10
  {
    c as int - '0' as int
  }

  function DigitChar(d: nat): (c: char)
    requires d < 10
    ensures IsDigit(c) && DigitValue(c) == d
  {
    ('0' as int + d) as char
  }

  /** The value of a run of decimal digits, most significant first; leading
      zeros contribute nothing. */
  function DigitsValue(s: string): nat
    requires AllDigits(s)
  {
    if |s| == 0 then 0 else DigitsValue(s[..|s| - 1]) * 10 + DigitValue(s[|s| - 1])
  }

  /** Java's `Integer.parseInt(s)`: `None` stands for the
      `NumberFormatException` it throws on malformed text or on a value
      outside the 32-bit range. */
  function ParseInt(s: string): (r: Option<int>)
    ensures r.Some? ==> IsIntLiteral(s) && InInt32(r.value)
    ensures !IsIntLiteral(s) ==> r.None?
    ensures IsIntLiteral(s) && s[0] == '-'
        ==> (r.Some? <==> DigitsValue(s[1..]) <= -Int32Min) && (r.Some? ==> r.value == -(DigitsValue(s[1..]) as int))
    ensures IsIntLiteral(s) && s[0] == '+'
        ==> (r.Some? <==> DigitsValue(s[1..]) <= Int32Max) && (r.Some? ==> r.value == DigitsValue(s[1..]))
    ensures IsIntLiteral(s) && s[0] != '-' && s[0] != '+'
        ==> (r.Some? <==> DigitsValue(s) <= Int32Max) && (r.Some? ==> r.value == DigitsValue(s))
  {
    if !IsIntLiteral(s) then None
    else
      var magnitude := if s[0] == '-' || s[0] == '+' then DigitsValue(s[1..]) else DigitsValue(s);
      var n := if s[0] == '-' then -magnitude else magnitude;
      if InInt32(n) then Some(n) else None
  }

  /** The decimal digits of `n`, without leading zeros. */
  function NatToString(n: nat): (s: string)
    ensures |s| > 0 && AllDigits(s)
    ensures |s| > 1 ==> s[0] != '0'
  {
    if n < 10 then [DigitChar(n)] else NatToString(n / 10) + [DigitChar(n % 10)]
  }

  /** Java's `Integer.toString(n)`, the text `StringBuilder.append(int)` adds. */
  function IntToString(n: int): (s: string)
    ensures IsIntLiteral(s)
    ensures s[0] != '+'
    ensures s[0] == '-' <==> n < 0
  {
    if n < 0 then "-" + NatToString(-n) else NatToString(n)
  }

  /** Reading back the digits of `n` gives `n`. */
  lemma {:induction false} NatToStringValue(n: nat)
    ensures DigitsValue(NatToString(n)) == n
  {
    if n >= 10 {
      NatToStringValue(n / 10);
      var s := NatToString(n);
      assert s[..|s| - 1] == NatToString(n / 10);
    }
  }

  /** Parsing the rendering of any 32-bit value gives that value back, so the
      port written into the URL denotes the port that was parsed. */
  lemma ParseIntToString(n: int)
    requires InInt32(n)
    ensures ParseInt(IntToString(n)) == Some(n)
  {
    var s := IntToString(n);
    if n < 0 {
      NatToStringValue(-n);
      assert s[1..] == NatToString(-n);
    } else {
      NatToStringValue(n);
    }
  }

  /** Leading zeros and a `+` sign are accepted and then forgotten: the value
      re-rendered is the canonical text of what was parsed. */
  lemma ParseIntCanonical(s: string)
    requires ParseInt(s).Some?
    ensures ParseInt(IntToString(ParseInt(s).value)) == ParseInt(s)
  {
    ParseIntToString(ParseInt(s).value);
  }

  /** A leading zero adds nothing to the value of a run of digits. */
  lemma {:induction false} LeadingZeroValue(d: string)
    requires AllDigits(d)
    ensures AllDigits(['0'] + d) && DigitsValue(['0'] + d) == DigitsValue(d)
  {
    var z := ['0'] + d;
    assert AllDigits(z) by {
      forall i | 0 <= i < |z| ensures IsDigit(z[i]) {
        if i > 0 { assert z[i] == d[i - 1]; }
      }
    }
    if |d| > 0 {
      var init := d[..|d| - 1];
      assert z[..|z| - 1] == ['0'] + init;
      assert z[|z| - 1] == d[|d| - 1];
      LeadingZeroValue(init);
    }
  }

  /** `Integer.parseInt` accepts a leading `+` and reads the same value as
      without it. */
  lemma PlusSignIgnored(d: string)
    requires |d| > 0 && AllDigits(d)
    ensures ParseInt("+" + d) == ParseInt(d)
  {
  }

  /** Leading zeros are accepted and do not change the value read. */
  lemma LeadingZeroIgnored(d: string)
    requires |d| > 0 && AllDigits(d)
    ensures ParseInt(['0'] + d) == ParseInt(d)
  {
    LeadingZeroValue(d);
  }

  /** The default port text denotes 1433. */
  lemma DefaultPortValue()
    ensures ParseInt("1433") == Some(1433)
  {
    assert NatToString(1433) == NatToString(143) + ['3'];
    assert NatToString(143) == NatToString(14) + ['3'];
    assert NatToString(14) == NatToString(1) + ['4'];
    assert IntToString(1433) == "1433";
    ParseIntToString(1433);
  }
}

=== FILE: samples.dfy ===
/** Sample configurations and command lines worked through the model: the
    URL for a minimal configuration and for one with a database and a domain,
    a complete run from tokens to the connection made, the second command
    line of the usage text run without a console, and port texts that
    `Integer.parseInt` accepts in non-canonical form.

    The samples fix their inputs through `requires` rather than writing them
    inline, and every comparison of string literals is a step lemma of its
    own, so that each proof obligation stays small. */
module Samples {
  import opened Wrappers
  import opened Args
  import opened ConnectionUrl
  import Decimal
  import opened Tool

  // Ports

  /** `+80` and `0080` are accepted as port 80. */
  lemma SamplePortTexts()
    ensures Decimal.ParseInt("+80") == Some(80)
    ensures Decimal.ParseInt("0080") == Some(80)
  {
    assert Decimal.NatToString(80) == Decimal.NatToString(8) + ['0'];
    assert Decimal.IntToString(80) == "80";
    Decimal.ParseIntToString(80);
    Decimal.PlusSignIgnored("80");
    assert "+" + "80" == "+80";
    assert Decimal.ParseInt("+80") == Decimal.ParseInt("+" + "80");
    Decimal.LeadingZeroIgnored("80");
    assert ['0'] + "80" == "080";
    Decimal.LeadingZeroIgnored("080");
    assert ['0'] + "080" == "0080";
  }

  // URLs

  /** Host `db1`, nothing else given: the default port 1433 and the default
      `encrypt` and `trustServerCertificate` values, no other clause. */
  lemma SampleDefaultUrl(cfg: Config)
    requires cfg == Config("db1", 1433, "", None, "alice", "pw", "true", "false", None)
    ensures Url(cfg) == "jdbc:sqlserver://db1:1433;encrypt=true;trustServerCertificate=false"
  {
    BaseText(cfg);
    var cs := Clauses(cfg);
    assert cs == [Clause(EncryptClause, "true"), Clause(TrustClause, "false")];
    RenderTwo(cs);
    EncryptPieceText(cs[0]);
    TrustPieceText(cs[1]);
    DefaultClausesText();
    DefaultUrlText();
  }

  /** Database `Sales` and domain `CONTOSO` with no scheme named: the
      `databaseName` clause first, the domain-derived scheme, the `domain`
      clause last (written clause by clause). */
  lemma SampleDomainUrl(cfg: Config)
    requires cfg == Config("db1", 1433, "Sales", Some("CONTOSO"), "alice", "pw", "true", "false", None)
    ensures Url(cfg)
         == "jdbc:sqlserver://db1:1433" + ";databaseName=Sales" + ";encrypt=true" + ";trustServerCertificate=false"
            + ";authenticationScheme=NativeAuthentication" + ";domain=CONTOSO"
  {
    BaseText(cfg);
    var cs := Clauses(cfg);
    assert cs == [Clause(DatabaseClause, "Sales"), Clause(EncryptClause, "true"), Clause(TrustClause, "false"),
                  Clause(SchemeClause, NativeAuthentication), Clause(DomainClause, "CONTOSO")];
    RenderFive(cs);
    DatabasePieceText(cs[0]);
    EncryptPieceText(cs[1]);
    TrustPieceText(cs[2]);
    SchemePieceText(cs[3]);
    DomainPieceText(cs[4]);
    RegroupPieces(UrlBase(cfg), Piece(cs, 0), Piece(cs, 1), Piece(cs, 2), Piece(cs, 3), Piece(cs, 4));
  }

  // A whole run

  /** Host `db1`, user `alice`, password `pw`, nothing optional, driver
      present and server reachable: the connection is made to
      `jdbc:sqlserver://db1:1433;encrypt=true;trustServerCertificate=false`
      with just `user` and `password` as credentials. */
  lemma SampleDefaultRun(args: seq<string>, env: Environment)
    requires args == ["--host", "db1", "--username", "alice", "--password", "pw"]
    requires env == Environment(None, None, None)
    ensures Run(args, env)
         == Connected(Target("jdbc:sqlserver://db1:1433;encrypt=true;trustServerCertificate=false",
                             map[UserProperty := "alice", PasswordProperty := "pw"]))
  {
    SampleDefaultParse(args);
    var cfg := Config("db1", 1433, "", None, "alice", "pw", "true", "false", None);
    SampleDefaultValidate();
    SampleDefaultUrl(cfg);
    assert Credentials(cfg) == map[UserProperty := "alice", PasswordProperty := "pw"];
  }

  /** The usage text's second sample, `--host 10.0.0.4 --domain CONTOSO
      --username bob`, run where no console can prompt: the password is
      missing and the run exits 1 before the driver is consulted. */
  lemma UsageSampleWithoutConsole(args: seq<string>, env: Environment)
    requires args == ["--host", "10.0.0.4", "--domain", "CONTOSO", "--username", "bob"]
    requires env.prompt.None?
    ensures Run(args, env) == PasswordMissing
    ensures Run(args, env).Code() == 1
  {
    var flags := [Valued(HostKey, "10.0.0.4"), Valued(DomainKey, "CONTOSO"), Valued(UsernameKey, "bob")];
    SpellThree(flags[0], flags[1], flags[2]);
    assert flags == [flags[0], flags[1], flags[2]];
    assert OptionPrefix + HostKey == "--host";
    assert OptionPrefix + DomainKey == "--domain";
    assert OptionPrefix + UsernameKey == "--username";
    assert Tokens(flags) == args;
    ParseSpelledOut(flags);
    var options := Parse(args);
    assert options == map[HostKey := "10.0.0.4", DomainKey := "CONTOSO", UsernameKey := "bob"];
    Decimal.DefaultPortValue();
    assert Validate(options, None) == Halt(PasswordMissing);
  }

  lemma SampleDefaultParse(args: seq<string>)
    requires args == ["--host", "db1", "--username", "alice", "--password", "pw"]
    ensures Parse(args)
         == map[HostKey := "db1", UsernameKey := "alice", PasswordKey := "pw"]
  {
    var flags := [Valued(HostKey, "db1"), Valued(UsernameKey, "alice"), Valued(PasswordKey, "pw")];
    SpellThree(flags[0], flags[1], flags[2]);
    assert flags == [flags[0], flags[1], flags[2]];
    assert OptionPrefix + HostKey == "--host";
    assert OptionPrefix + UsernameKey == "--username";
    assert OptionPrefix + PasswordKey == "--password";
    assert Tokens(flags) == ["--host", "db1", "--username", "alice", "--password", "pw"];
    ParseSpelledOut(flags);
  }

  lemma SampleDefaultValidate()
    ensures Validate(map[HostKey := "db1", UsernameKey := "alice", PasswordKey := "pw"], None)
         == Proceed(Config("db1", 1433, "", None, "alice", "pw", "true", "false", None))
  {
    Decimal.DefaultPortValue();
  }

  // Steps

  /** Three options spelled out, and recorded, one after the other. */
  lemma SpellThree(a: Flag, b: Flag, c: Flag)
    ensures Tokens([a, b, c]) == FlagTokens(a) + FlagTokens(b) + FlagTokens(c)
    ensures Apply(map[], [a, b, c]) == map[a.Key() := a.Value()][b.Key() := b.Value()][c.Key() := c.Value()]
  {
    assert [a, b, c][1..] == [b, c];
    assert [b, c][1..] == [c];
    assert [c][1..] == [];
    assert Tokens([c]) == FlagTokens(c) + Tokens([]);
    assert Tokens([b, c]) == FlagTokens(b) + Tokens([c]);
    assert Tokens([a, b, c]) == FlagTokens(a) + Tokens([b, c]);
    var ma := map[][a.Key() := a.Value()];
    var mb := ma[b.Key() := b.Value()];
    assert Apply(map[], [a, b, c]) == Apply(ma, [b, c]);
    assert Apply(ma, [b, c]) == Apply(mb, [c]);
    assert Apply(mb, [c]) == Apply(mb[c.Key() := c.Value()], []);
  }

  lemma RegroupPieces(b: string, p0: string, p1: string, p2: string, p3: string, p4: string)
    ensures b + (p0 + (p1 + (p2 + (p3 + p4)))) == b + p0 + p1 + p2 + p3 + p4
  {
  }

  lemma BaseText(cfg: Config)
    requires cfg.host == "db1" && cfg.port == 1433
    ensures UrlBase(cfg) == "jdbc:sqlserver://db1:1433"
  {
  }

  /** `;name=value` of the clause at `i`. */
  function Piece(cs: seq<Clause>, i: nat): string
    requires i < |cs|
  {
    [Separator] + RenderClause(cs[i])
  }

  lemma RenderCons(c: Clause, cs: seq<Clause>)
    ensures RenderClauses([c] + cs) == [Separator] + RenderClause(c) + RenderClauses(cs)
  {
  }

  lemma RenderTwo(cs: seq<Clause>)
    requires |cs| == 2
    ensures RenderClauses(cs) == Piece(cs, 0) + Piece(cs, 1)
  {
    RenderCons(cs[0], cs[1..]);
    assert [cs[0]] + cs[1..] == cs;
    RenderCons(cs[1], []);
    assert cs[1..] == [cs[1]] + [];
  }

  lemma RenderFive(cs: seq<Clause>)
    requires |cs| == 5
    ensures RenderClauses(cs) == Piece(cs, 0) + (Piece(cs, 1) + (Piece(cs, 2) + (Piece(cs, 3) + Piece(cs, 4))))
  {
    RenderCons(cs[0], cs[1..]);
    assert [cs[0]] + cs[1..] == cs;
    RenderCons(cs[1], cs[2..]);
    assert [cs[1]] + cs[2..] == cs[1..];
    RenderCons(cs[2], cs[3..]);
    assert [cs[2]] + cs[3..] == cs[2..];
    RenderCons(cs[3], cs[4..]);
    assert [cs[3]] + cs[4..] == cs[3..];
    RenderCons(cs[4], []);
    assert cs[4..] == [cs[4]] + [];
  }

  lemma DatabasePieceText(c: Clause)
    requires c == Clause(DatabaseClause, "Sales")
    ensures [Separator] + RenderClause(c) == ";databaseName=Sales"
  {
  }

  lemma EncryptPieceText(c: Clause)
    requires c == Clause(EncryptClause, "true")
    ensures [Separator] + RenderClause(c) == ";encrypt=true"
  {
  }

  lemma TrustPieceText(c: Clause)
    requires c == Clause(TrustClause, "false")
    ensures [Separator] + RenderClause(c) == ";trustServerCertificate=false"
  {
  }

  lemma SchemePieceText(c: Clause)
    requires c == Clause(SchemeClause, NativeAuthentication)
    ensures [Separator] + RenderClause(c) == ";authenticationScheme=NativeAuthentication"
  {
  }

  lemma DomainPieceText(c: Clause)
    requires c == Clause(DomainClause, "CONTOSO")
    ensures [Separator] + RenderClause(c) == ";domain=CONTOSO"
  {
  }

  lemma DefaultClausesText()
    ensures ";encrypt=true" + ";trustServerCertificate=false" == ";encrypt=true;trustServerCertificate=false"
  {
  }

  lemma DefaultUrlText()
    ensures "jdbc:sqlserver://db1:1433" + ";encrypt=true;trustServerCertificate=false"
         == "jdbc:sqlserver://db1:1433;encrypt=true;trustServerCertificate=false"
  {
  }
}

=== FILE: tool.dfy ===
/** The decision `main` makes: from the parsed options, and from what the
    outside world answers (the password prompt, the driver lookup, the
    connect call), to the process exit code. Checks run in a fixed order and
    the first failing one decides: a parse error or a user-supplied `error`
    option (1), a help request (0), a missing host or username (1), a port
    that is not a 32-bit integer (1), no password (1), no driver (2), a failed
    connect (3); otherwise the connection succeeded (0). */
module Tool {
  import opened Wrappers
  import opened Args
  import Decimal
  import opened ConnectionUrl

  const HostKey: string := "host"
  const PortKey: string := "port"
  const DatabaseKey: string := "database"
  const DomainKey: string := "domain"
  const UsernameKey: string := "username"
  const PasswordKey: string := "password"
  const EncryptKey: string := "encrypt"
  const TrustKey: string := "trustServerCertificate"
  const SchemeKey: string := "authenticationScheme"

  const DefaultPort: string := "1433"
  const DefaultDatabase: string := ""
  const DefaultEncrypt: string := "true"
  const DefaultTrust: string := "false"

  /** The answers of the outside world: what the password prompt returned
      (`None` when there is no console or the prompt was closed), the
      driver-lookup failure detail if the driver class is missing, and the
      connect failure detail if the connect call failed. */
  datatype Environment = Environment(
    prompt: Option<string>,
    driverError: Option<string>,
    connectError: Option<string>)

  /** How a run ends. */
  datatype Exit =
    | UsageError(message: string)
    | HelpShown
    | MissingOption(option: string)
    | InvalidPort(value: string)
    | PasswordMissing
    | DriverNotFound(detail: string)
    | ConnectFailed(target: Target, detail: string)
    | Connected(target: Target)
  {
    /** The process exit code: 0 for help and for a connection made, 1 for a
        usage or validation failure, 2 for a missing driver, 3 for a failed
        connect. */
    function Code(): (c: int)
      ensures 0 <= c <= 3
      ensures c == 0 <==> HelpShown? || Connected?
      ensures c == 2 <==> DriverNotFound?
      ensures c == 3 <==> ConnectFailed?
    {
      match this
      case UsageError(_) => 1
      case HelpShown => 0
      case MissingOption(_) => 1
      case InvalidPort(_) => 1
      case PasswordMissing => 1
      case DriverNotFound(_) => 2
      case ConnectFailed(_, _) => 3
      case Connected(_) => 0
    }

    /** The line written to standard error, if any: one exactly for a
        non-zero exit. */
    function ErrorLine(): (r: Option<string>)
      ensures r.Some? <==> Code() != 0
    {
      match this
      case UsageError(m) => Some(m)
      case HelpShown => None
      case MissingOption(o) => Some("Missing required option: " + o)
      case InvalidPort(v) => Some("Invalid port: " + v)
      case PasswordMissing => Some("Password not provided.")
      case DriverNotFound(d) => Some("SQL Server JDBC driver not found: " + d)
      case ConnectFailed(_, d) => Some("Failed to connect: " + d)
      case Connected(_) => None
    }

    /** The driver's connect call was made. */
    predicate Attempted() {
      ConnectFailed? || Connected?
    }
  }

  datatype Validation = Proceed(config: Config) | Halt(exit: Exit)

  /** The password: the `password` option verbatim when given (even empty),
      otherwise whatever the prompt returned. */
  function ResolvePassword(options: Options, prompt: Option<string>): (r: Option<string>)
    ensures PasswordKey in options ==> r == Some(options[PasswordKey])
    ensures PasswordKey !in options ==> r == prompt
  {
    if PasswordKey in options then Some(options[PasswordKey]) else prompt
  }

  /** Everything a connection attempt needs is in place: no parse error, no
      help request, host and username given and non-empty, the port (default
      1433) a 32-bit integer, and a password available. */
  predicate Ready(options: Options, prompt: Option<string>) {
    && ErrorKey !in options
    && HelpKey !in options
    && NonEmpty(Get(options, HostKey))
    && NonEmpty(Get(options, UsernameKey))
    && Decimal.ParseInt(GetOrDefault(options, PortKey, DefaultPort)).Some?
    && ResolvePassword(options, prompt).Some?
  }

  /** The checks of `main` before the driver is touched, and the defaults it
      fills in. */
  function Validate(options: Options, prompt: Option<string>): (v: Validation)
    ensures v.Proceed? <==> Ready(options, prompt)
    ensures v.Halt? ==> !v.exit.Attempted() && 0 <= v.exit.Code() <= 1
    ensures v.Proceed? ==> && Some(v.config.host) == Get(options, HostKey)
                           && Some(v.config.username) == Get(options, UsernameKey)
                           && Some(v.config.port) == Decimal.ParseInt(GetOrDefault(options, PortKey, DefaultPort))
                           && Some(v.config.password) == ResolvePassword(options, prompt)
                           && v.config.database == GetOrDefault(options, DatabaseKey, DefaultDatabase)
                           && v.config.domain == Get(options, DomainKey)
                           && v.config.encrypt == GetOrDefault(options, EncryptKey, DefaultEncrypt)
                           && v.config.trustServerCertificate == GetOrDefault(options, TrustKey, DefaultTrust)
                           && v.config.authenticationScheme == Get(options, SchemeKey)
  {
    if ErrorKey in options then Halt(UsageError(options[ErrorKey]))
    else if HelpKey in options then Halt(HelpShown)
    else if !NonEmpty(Get(options, HostKey)) then Halt(MissingOption(OptionPrefix + HostKey))
    else if !NonEmpty(Get(options, UsernameKey)) then Halt(MissingOption(OptionPrefix + UsernameKey))
    else
      var portValue := GetOrDefault(options, PortKey, DefaultPort);
      var port := Decimal.ParseInt(portValue);
      if port.None? then Halt(InvalidPort(portValue))
      else
        var password := ResolvePassword(options, prompt);
        if password.None? then Halt(PasswordMissing)
        else Proceed(Config(
          host := options[HostKey],
          port := port.value,
          database := GetOrDefault(options, DatabaseKey, DefaultDatabase),
          domain := Get(options, DomainKey),
          username := options[UsernameKey],
          password := password.value,
          encrypt := GetOrDefault(options, EncryptKey, DefaultEncrypt),
          trustServerCertificate := GetOrDefault(options, TrustKey, DefaultTrust),
          authenticationScheme := Get(options, SchemeKey)))
  }

  /** The driver lookup, then the connect call with the built target. */
  function Connect(target: Target, env: Environment): (e: Exit)
    ensures e.Code() == 2 <==> env.driverError.Some?
    ensures e.Attempted() <==> env.driverError.None?
    ensures e.Attempted() ==> e.target == target
    ensures e.Code() == 0 <==> env.driverError.None? && env.connectError.None?
    ensures e.DriverNotFound? ==> e.detail == env.driverError.value
    ensures e.ConnectFailed? ==> e.detail == env.connectError.value
  {
    if env.driverError.Some? then DriverNotFound(env.driverError.value)
    else if env.connectError.Some? then ConnectFailed(target, env.connectError.value)
    else Connected(target)
  }

  /** `main` after parsing. The connect call is made only once validation
      has passed and the driver is there, and it receives the target built
      from the validated settings. */
  function Decide(options: Options, env: Environment): (e: Exit)
    ensures e.Attempted() ==> Ready(options, env.prompt) && env.driverError.None?
    ensures e.Attempted() ==> e.target == BuildTarget(Validate(options, env.prompt).config)
  {
    match Validate(options, env.prompt)
    case Halt(e) => e
    case Proceed(cfg) => Connect(BuildTarget(cfg), env)
  }

  /** `main` on a command line. A command line on which parsing stopped
      early ends as a usage error carrying the parser's message, whatever
      else it gives. */
  function Run(args: seq<string>, env: Environment): (e: Exit)
    ensures Scan(args).stop.Unexpected? ==> e == UsageError(UnexpectedArgument(Scan(args).stop.token))
    ensures Scan(args).stop.NoValue? ==> e == UsageError(MissingValue(Scan(args).stop.token))
  {
    ParseScanned(args);
    Decide(Parse(args), env)
  }

  // The order of the checks

  /** Which check fails first decides the exit, and the error and help
      checks come before everything else. */
  lemma FailureOrder(options: Options, env: Environment)
    ensures ErrorKey in options ==> Decide(options, env) == UsageError(options[ErrorKey])
    ensures ErrorKey !in options && HelpKey in options ==> Decide(options, env) == HelpShown
    ensures ErrorKey !in options && HelpKey !in options && !NonEmpty(Get(options, HostKey))
        ==> Decide(options, env) == MissingOption("--host")
    ensures ErrorKey !in options && HelpKey !in options && NonEmpty(Get(options, HostKey))
            && !NonEmpty(Get(options, UsernameKey))
        ==> Decide(options, env) == MissingOption("--username")
    ensures ErrorKey !in options && HelpKey !in options && NonEmpty(Get(options, HostKey))
            && NonEmpty(Get(options, UsernameKey))
            && Decimal.ParseInt(GetOrDefault(options, PortKey, DefaultPort)).None?
        ==> Decide(options, env) == InvalidPort(GetOrDefault(options, PortKey, DefaultPort))
    ensures !Ready(options, env.prompt) && Decimal.ParseInt(GetOrDefault(options, PortKey, DefaultPort)).Some?
            && ErrorKey !in options && HelpKey !in options && NonEmpty(Get(options, HostKey))
            && NonEmpty(Get(options, UsernameKey))
        ==> Decide(options, env) == PasswordMissing
  {
  }

  /** The driver is consulted, and the connect call made, only once every
      validation check has passed; the connect call only when the driver is
      there. */
  lemma AttemptIff(options: Options, env: Environment)
    ensures Decide(options, env).Attempted() <==> Ready(options, env.prompt) && env.driverError.None?
    ensures Decide(options, env).Code() == 2 <==> Ready(options, env.prompt) && env.driverError.Some?
    ensures Decide(options, env).Code() == 3
        <==> Ready(options, env.prompt) && env.driverError.None? && env.connectError.Some?
  {
  }

  /** Exit code 0 means help was asked for with no parse error, or the
      connection was established. */
  lemma SuccessIff(options: Options, env: Environment)
    ensures Decide(options, env).Code() == 0
        <==> (ErrorKey !in options && HelpKey in options)
             || (Ready(options, env.prompt) && env.driverError.None? && env.connectError.None?)
  {
  }

  /** Exit code 1 is exactly a failed validation other than a help request. */
  lemma UsageFailureIff(options: Options, env: Environment)
    ensures Decide(options, env).Code() == 1
        <==> !Ready(options, env.prompt) && !(ErrorKey !in options && HelpKey in options)
  {
  }

  /** With a `password` option the prompt is never consulted: its answer
      cannot change the outcome. */
  lemma PasswordOptionSkipsPrompt(options: Options, env: Environment, other: Option<string>)
    requires PasswordKey in options
    ensures Decide(options, env) == Decide(options, env.(prompt := other))
  {
  }

  /** When validation fails the driver and the network are never touched:
      their answers cannot change the outcome. */
  lemma ValidationBeforeDriver(options: Options, env: Environment, driverError: Option<string>, connectError: Option<string>)
    requires !Ready(options, env.prompt)
    ensures Decide(options, env) == Decide(options, Environment(env.prompt, driverError, connectError))
  {
  }

  /** The connect call receives the URL for the given host and the parsed
      port, and credentials for the given user and the resolved password. */
  lemma AttemptTarget(options: Options, env: Environment)
    requires Decide(options, env).Attempted()
    ensures var t := Decide(options, env).target;
            && UrlPrefix + options[HostKey] + ":"
               + Decimal.IntToString(Decimal.ParseInt(GetOrDefault(options, PortKey, DefaultPort)).value) <= t.url
            && t.credentials[UserProperty] == options[UsernameKey]
            && Some(t.credentials[PasswordProperty]) == ResolvePassword(options, env.prompt)
            && (DomainProperty in t.credentials <==> NonEmpty(Get(options, DomainKey)))
  {
  }

  /** From the options to the URL clauses: `encrypt` and
      `trustServerCertificate` always appear, with the option or the defaults
      `true` and `false`; `databaseName` exactly for a non-empty `database`;
      a non-empty named scheme wins over the domain, an empty one suppresses
      the clause, and with none named a non-empty `domain` selects
      `NativeAuthentication`; `domain` exactly for a non-empty `domain`. */
  lemma OptionsToClauses(options: Options, prompt: Option<string>)
    requires Validate(options, prompt).Proceed?
    ensures var cs := Clauses(Validate(options, prompt).config);
            && Lookup(cs, EncryptClause) == Some(if EncryptKey in options then options[EncryptKey] else "true")
            && Lookup(cs, TrustClause) == Some(if TrustKey in options then options[TrustKey] else "false")
            && (Lookup(cs, DatabaseClause).Some? <==> DatabaseKey in options && options[DatabaseKey] != "")
            && (Lookup(cs, DatabaseClause).Some? ==> Lookup(cs, DatabaseClause).value == options[DatabaseKey])
            && (SchemeKey in options && options[SchemeKey] != ""
                ==> Lookup(cs, SchemeClause) == Some(options[SchemeKey]))
            && (SchemeKey in options && options[SchemeKey] == "" ==> Lookup(cs, SchemeClause) == None)
            && (SchemeKey !in options
                ==> (Lookup(cs, SchemeClause)
                     == if DomainKey in options && options[DomainKey] != "" then Some(NativeAuthentication) else None))
            && (Lookup(cs, DomainClause).Some? <==> DomainKey in options && options[DomainKey] != "")
            && (Lookup(cs, DomainClause).Some? ==> Lookup(cs, DomainClause).value == options[DomainKey])
  {
    ClausesContent(Validate(options, prompt).config);
  }

  /** The line each validation failure writes to standard error. */
  lemma FailureMessages(options: Options, env: Environment)
    ensures ErrorKey in options ==> Decide(options, env).ErrorLine() == Some(options[ErrorKey])
    ensures ErrorKey !in options && HelpKey in options ==> Decide(options, env).ErrorLine() == None
    ensures ErrorKey !in options && HelpKey !in options && !NonEmpty(Get(options, HostKey))
        ==> Decide(options, env).ErrorLine() == Some("Missing required option: --host")
    ensures ErrorKey !in options && HelpKey !in options && NonEmpty(Get(options, HostKey))
            && !NonEmpty(Get(options, UsernameKey))
        ==> Decide(options, env).ErrorLine() == Some("Missing required option: --username")
    ensures Decide(options, env).InvalidPort?
        ==> Decide(options, env).ErrorLine() == Some("Invalid port: " + GetOrDefault(options, PortKey, DefaultPort))
    ensures Decide(options, env) == PasswordMissing ==> Decide(options, env).ErrorLine() == Some("Password not provided.")
  {
    FailureOrder(options, env);
    assert "Missing required option: " + "--host" == "Missing required option: --host";
    assert "Missing required option: " + "--username" == "Missing required option: --username";
  }

  /** Once validation has passed, the line a missing driver or a failed
      connect writes to standard error, each carrying the failure's detail. */
  lemma DriverAndConnectMessages(options: Options, env: Environment)
    requires Ready(options, env.prompt)
    ensures env.driverError.Some?
        ==> Decide(options, env).ErrorLine() == Some("SQL Server JDBC driver not found: " + env.driverError.value)
    ensures env.driverError.None? && env.connectError.Some?
        ==> Decide(options, env).ErrorLine() == Some("Failed to connect: " + env.connectError.value)
    ensures env.driverError.None? && env.connectError.None? ==> Decide(options, env).ErrorLine() == None
  {
  }

  // Whole command lines

  /** `--help stray`: the stray token is a parse error, and the error check
      comes first, so this is a usage error and not a help request. */
  lemma HelpThenStrayIsUsageError(env: Environment)
    ensures Run(["--help", "stray"], env) == UsageError("Unexpected argument: stray")
    ensures Run(["--help", "stray"], env).Code() == 1
  {
    var args := ["--help", "stray"];
    assert IsOptionToken(args[0]) && KeyOf(args[0]) == HelpKey;
    assert args[1..] == ["stray"];
    assert "stray"[..2][0] != '-';
  }

  /** A user-supplied `--error x` lands on the pseudo-key the parser uses for
      its own errors and is reported as a usage error with message `x`. */
  lemma ErrorOptionCollides(flags: seq<Flag>, env: Environment, message: string)
    requires AllWellFormed(flags)
    requires LastValue(flags, ErrorKey) == Some(message)
    ensures Run(Tokens(flags), env) == UsageError(message)
  {
    ParseSpelledOut(flags);
    ApplyLastWins(map[], flags, ErrorKey);
  }

  /** `--help` anywhere in a well-formed command line that names no `error`
      option exits 0 whatever else is given or missing. */
  lemma HelpAnywhere(flags: seq<Flag>, env: Environment)
    requires AllWellFormed(flags)
    requires HelpFlag in flags
    requires LastValue(flags, ErrorKey).None?
    ensures Run(Tokens(flags), env) == HelpShown
  {
    ParseSpelledOut(flags);
    ApplyLastWins(map[], flags, ErrorKey);
    HelpFlagRecorded(flags);
    ApplyLastWins(map[], flags, HelpKey);
  }

  lemma {:induction false} HelpFlagRecorded(flags: seq<Flag>)
    requires HelpFlag in flags
    ensures LastValue(flags, HelpKey).Some?
  {
    var last := flags[|flags| - 1];
    if last != HelpFlag && last.Key() != HelpKey {
      var init := flags[..|flags| - 1];
      assert flags == init + [last];
      assert HelpFlag in init;
      HelpFlagRecorded(init);
    }
  }
}

=== FILE: wrappers.dfy ===
/** Optional values and the two map lookups the tool relies on: a lookup that
    may find nothing (Java's `Map.get`, which answers null for a missing key)
    and a lookup with a fallback (`Map.getOrDefault`). */
module Wrappers {

  /** A value that may be absent; `None` plays the role of Java's null. */
  datatype Option<+T> = None | Some(value: T) {

    /** The carried value, or `default` when there is none. */
    function GetOr(default: T): T {
      match this
      case Some(v) => v
      case None => default
    }
  }

  /** The entry for `key`, or `None` when the map has no such key. */
  function Get<K, V>(m: map<K, V>, key: K): (r: Option<V>)
    ensures r.Some? <==> key in m
    ensures r.Some? ==> r.value == m[key]
  {
    if key in m then Some(m[key]) else None
  }

  /** The entry for `key`, or `default` when the map has no such key. */
  function GetOrDefault<K, V>(m: map<K, V>, key: K, default: V): (r: V)
    ensures key in m ==> r == m[key]
    ensures key !in m ==> r == default
  {
    Get(m, key).GetOr(default)
  }
}
